=== FILE: README.md ===
# M/M/1 queue calculator and per-second simulation, in Dafny

This project models the two pieces of logic in the queueing calculator's
`src/scripts/queueCalculations.js`:

- **The analytic engine.** `QueueCalculator` evaluates six closed-form M/M/1
  steady-state metrics from the arrival rate λ and the service rate μ (per hour):
  - utilization ρ = λ/μ;
  - mean customers in system L = ρ/(1-ρ);
  - mean customers in queue Lq = ρ²/(1-ρ);
  - mean time in system W = 1/(μ-λ);
  - mean time in queue Wq = ρ/(μ-λ);
  - empty-system probability P0 = 1-ρ.

  `performCalculations` either shows these six values or, when μ ≤ λ, the
  "No estable" report: utilization only, the four means tagged, and P0 shown
  as the fixed 0.
- **The per-second simulation.** `simState` is advanced by a one-second timer.
  - In each tick, a Poisson number of customers arrives.
  - If the queue is non-empty, one Bernoulli service trial may remove one customer.
  - The clock then advances one second.
  - After the tick, a horizon test and then a safety test (queue length of
    2,000,000) may stop the run.
  - `startSimulation` resets the counters and fixes the horizon. `stopSimulation` clears the run flag.

Modules:

- `Wrappers` (`wrappers.dfy`): `Option`.
- `Analytic` (`analytic.dfy`): the formulas over exact `real` arithmetic, their M/M/1 identities, and the
  stable/unstable decision. The decision and the "calculate" request around it are each modelled twice: `PerformAsWritten` and `Calculate` as written, and `Perform` and `CalculateCorrected` with the domain 0 ≤ λ < μ stated explicitly.
- `Simulation` (`simulation.dfy`): the state record and the pure transitions `Start`, `Tick` and `Stop`.
  `Run` feeds a sequence of ticks to a run. The module also holds the conservation, horizon and safety lemmas.
- `Poisson` (`poisson.dfy`): Knuth's product-of-uniforms sampler run over a
  given finite sequence of draws.

Randomness is passed in as parameters:
- `Tick` takes the arrival count `k` and the outcome `served` of the service trial.
- `SamplePoisson` takes its uniform draws and the threshold `exp(-λ)`.

The timer becomes `Run`, which applies `Tick` to each input while the run is
running. A stopped run consumes no further input, because the source clears the
interval when it stops.

## Model

| member | source | states |
|---|---|---|
| `Analytic.Utilization` | src/scripts/queueCalculations.js:7-9 | ρ·μ = λ. For μ > 0, ρ < 1 exactly when λ < μ. For 0 < λ < μ, 0 < ρ < 1. |
| `Analytic.CustomersInSystem` | src/scripts/queueCalculations.js:11-14 | L·(μ-λ) = λ, i.e. L = λ/(μ-λ). L is positive for 0 < λ < μ. |
| `Analytic.CustomersInQueue` | src/scripts/queueCalculations.js:16-19 | Lq·μ·(μ-λ) = λ². Lq is positive for 0 < λ < μ. |
| `Analytic.TimeInSystem` | src/scripts/queueCalculations.js:21-23 | W·(μ-λ) = 1. W is positive whenever λ < μ. |
| `Analytic.TimeInQueue` | src/scripts/queueCalculations.js:25-28 | Wq·μ·(μ-λ) = λ. Wq is positive for 0 < λ < μ. |
| `Analytic.EmptyProbability` | src/scripts/queueCalculations.js:30-32 | P0·μ = μ-λ. P0 lies in (0, 1] whenever 0 ≤ λ < μ. |
| `Analytic.LoadGapNonzero` | src/scripts/queueCalculations.js:12-13 | The divisor 1-ρ equals (μ-λ)/μ, so it is zero exactly when λ = μ. |
| `Analytic.StableDomainDivisors` | src/scripts/queueCalculations.js:13-27 | For 0 < μ and λ < μ, both divisors 1-ρ and μ-λ are strictly positive. |
| `Analytic.QueueIsUtilizationTimesSystem` | src/scripts/queueCalculations.js:11-19 | Lq = ρ·L and L - Lq = ρ. |
| `Analytic.ServiceTimeGap` | src/scripts/queueCalculations.js:21-28 | W - Wq = 1/μ, one mean service time. |
| `Analytic.LittlesLaw` | src/scripts/queueCalculations.js:11-28 | L = λ·W and Lq = λ·Wq. |
| `Analytic.EmptyProbabilityComplement` | src/scripts/queueCalculations.js:30-32 | P0 = 1-ρ and P0·(1+L) = 1. |
| `Analytic.PerformAsWritten` | src/scripts/queueCalculations.js:106-127 | The line-106 guard gives a "stable" verdict exactly when λ < μ, including μ = 0. With μ = 0 the utilization is non-finite. With μ ≠ 0 all six figures are finite. |
| `Analytic.Perform` | src/scripts/queueCalculations.js:106-127 | Verdict is stable ⟺ 0 ≤ λ < μ. When stable: six finite figures, 0 ≤ ρ < 1 with ρ·μ = λ, non-negative means, W > 0, and 0 < P0 ≤ 1; every mean is positive and P0 < 1 when λ > 0. When unstable: four means tagged "No estable", P0 is the fixed 0, and the utilization is λ/μ, non-finite exactly when μ = 0 and at least 1 when 0 ≤ λ and 0 < μ. |
| `Analytic.StableReportIdentities` | src/scripts/queueCalculations.js:120-127 | The figures of a stable report satisfy Lq = ρ·L, L - Lq = ρ, W - Wq = 1/μ, L = λ·W, Lq = λ·Wq and P0 = 1-ρ. |
| `Analytic.AsWrittenAgreesOutsideGap` | src/scripts/queueCalculations.js:106 | `PerformAsWritten` and `Perform` give the same report exactly when ¬(λ < 0 ∧ λ < μ), proved in both directions: the guard as written and the corrected gate differ only on inputs with a negative arrival rate below the service rate. |
| `Analytic.GuardAdmitsZeroServiceRate` | src/scripts/queueCalculations.js:106-122 | λ = -1, μ = 0 passes the guard and gets a stable verdict with non-finite utilization. The explicit decision reports it unstable. |
| `Analytic.GuardAdmitsNegativeServiceRate` | src/scripts/queueCalculations.js:106-122 | λ = -10, μ = -1 passes the guard and gets a stable verdict with utilization 10. The explicit decision reports it unstable. |
| `Analytic.GuardAdmitsNegativeArrivalRate` | src/scripts/queueCalculations.js:106-127 | λ = -10, μ = 1 passes the guard and gets a stable verdict with utilization -10 and empty-system probability 11. The explicit decision reports it unstable. |
| `Analytic.GuardAdmitsImpossibleProbability` | src/scripts/queueCalculations.js:106-127 | Every input with λ < 0, λ < μ and μ ≠ 0 passes the guard and gets a stable verdict whose empty-system probability lies outside [0, 1]: above 1 when μ > 0, below 0 when μ < 0. The explicit decision reports all of them unstable. |
| `Analytic.ModerateLoadScenario` | src/scripts/queueCalculations.js:120-127 | λ = 2, μ = 5 gives 0.4, 2/3, 4/15, 1/3 h, 2/15 h, 0.6. |
| `Analytic.BoundaryScenario` | src/scripts/queueCalculations.js:106-117 | λ = μ = 5 is unstable, with utilization 1 and P0 shown as 0. |
| `Analytic.OverloadScenario` | src/scripts/queueCalculations.js:106-117 | λ = 10, μ = 1 is unstable, with utilization 10. |
| `Analytic.Calculate` | src/scripts/queueCalculations.js:96-127 | A rate that did not parse rejects the request. Otherwise the verdict is stable ⟺ λ < μ, the guard as written, and a stable verdict with μ = 0 carries a non-finite utilization. |
| `Analytic.CalculateCorrected` | src/scripts/queueCalculations.js:96-127 | A rate that did not parse rejects the request. Otherwise the verdict is stable ⟺ 0 ≤ λ < μ, and a stable report has six finite figures with 0 < P0 ≤ 1. |
| `Simulation.TicksFor` | src/scripts/queueCalculations.js:293 | A bounded run performs max(H, 1) ticks: exactly one when H = 0, because the stop test comes after the first tick, and exactly H otherwise. |
| `Simulation.HorizonOf` | src/scripts/queueCalculations.js:268 | The horizon is unbounded exactly when hours ≤ 0. Otherwise it is the H with H ≤ hours·3600 < H+1, i.e. the floor. |
| `Simulation.Start` | src/scripts/queueCalculations.js:236-268 | Start on a running state changes nothing. An unparsed field changes nothing. Otherwise the run is running with every counter zero and the horizon from the hours. Conservation is preserved. |
| `Simulation.Tick` | src/scripts/queueCalculations.js:273-303 | Arrivals grow by k. Departures grow by 1 exactly when the queue after arrivals is non-empty and the trial succeeds, otherwise by 0. Elapsed grows by 1. Flow balances and conservation is preserved. The horizon test decides first, then the safety test. The run goes on exactly when neither fires. |
| `Simulation.Stop` | src/scripts/queueCalculations.js:311-316 | The run flag is cleared. Elapsed, queue, arrivals, departures and horizon are unchanged. |
| `Simulation.Run` | src/scripts/queueCalculations.js:273-316 | A stopped run consumes no tick. Elapsed grows by at most one per input, and by exactly one per input while the run stays running. The horizon is fixed for the whole run. |
| `Simulation.IdleConserved` | src/scripts/queueCalculations.js:135-141 | The initial record is stopped and satisfies queue = arrivals - departures. |
| `Simulation.StopIdempotent` | src/scripts/queueCalculations.js:311-316 | Stopping twice equals stopping once. Stopping a stopped run is a no-op. |
| `Simulation.StartIdempotent` | src/scripts/queueCalculations.js:236-237 | A second start request on a started run leaves it unchanged. |
| `Simulation.RunConserves` | src/scripts/queueCalculations.js:275-289 | queue = arrivals - departures after any sequence of ticks. |
| `Simulation.BoundedRunLength` | src/scripts/queueCalculations.js:289-303 | With horizon H, a run never passes max(H, 1) ticks and is stopped once they are spent. Unless the safety stop fired, it ends on the horizon after exactly max(H, 1) ticks. |
| `Simulation.UnboundedRunNeverTimesOut` | src/scripts/queueCalculations.js:268-303 | With no horizon, a run never ends by time. It is still running or was stopped by the safety limit. |
| `Simulation.QueueBoundedByArrivals` | src/scripts/queueCalculations.js:275-289 | For every input, the queue never holds more than its start value plus the arrivals fed. |
| `Simulation.SafetyNeedsArrivals` | src/scripts/queueCalculations.js:276-303 | While the queue at the start plus all arrivals fed stays below 2,000,000, the safety stop cannot fire. |
| `Simulation.StartedBoundedRun` | src/scripts/queueCalculations.js:253-303 | A run started with hours > 0 performs at most max(⌊hours·3600⌋, 1) ticks and conserves customers. Unless the safety stop fires, it performs exactly that many and ends on the horizon. |
| `Simulation.UnboundedRunWithinSafety` | src/scripts/queueCalculations.js:268-306 | A run started with hours ≤ 0 and fed n seconds with fewer than 2,000,000 arrivals in total is still running at elapsed n, with a queue no longer than those arrivals. |
| `Simulation.SaturationScenario` | src/scripts/queueCalculations.js:271-303 | A tick that brings the queue to 2,000,000 stops the run with the safety event. No later input changes it. |
| `Poisson.SamplePoisson` | src/scripts/queueCalculations.js:147-159 | λ ≤ 0 gives 0. Otherwise the result n is such that the product first reaches the threshold or below after exactly n+1 draws. The result is 0 exactly when the first draw is at or below the threshold. `None` means the given draws never reach the threshold. |
| `Poisson.SampleUnique` | src/scripts/queueCalculations.js:152-158 | The sample is determined by the draws and the threshold. |

## Left out

- Input parsing (`getNumericValue`, lines 36-42) is not modelled. A field arrives as `Option<real>`, and `None` stands for the NaN the parser returns.
- Alerts, result display, canvas drawing and event wiring are not modelled: `showAlert`, `updateResult`, `updateSimUI`, `drawSimulationFrame`, the `DOMContentLoaded` and `beforeunload` handlers. The notices are represented only by the report's `stable` flag and by the tick's `Event`.
- Number formatting is not modelled: `toFixed(4)`, the `* 100 + "%"` strings and the `" horas"` suffix. Figures are exact reals.
- The `try`/`catch` at lines 120-131 is not modelled, because nothing in the formula branch throws.
- `setInterval`/`clearInterval`, `intervalId` and `stepMs` are replaced by the explicit `Tick` and `Run`. Running and an armed timer coincide in the source.
- `maxDisplay` is not modelled. It only limits drawing.
- `Math.random` and `Math.exp` are not evaluated. The arrival count, the service outcome, the uniform draws and the threshold `exp(-λ)` are parameters.
- The per-second rates λ/3600 and the service probability `1 - exp(-μ/3600)` are not modelled numerically, because they only feed those random draws.
- `Math.max(0, queueLength - 1)` at line 284 is modelled as `queueLength - 1`: the branch is only reached when the queue is positive.
- Very large horizons are not modelled: a `Math.floor(hours * 3600)` that overflows to Infinity would run unbounded. Horizons are exact naturals.
- Analytic.Utilization: requires μ ≠ 0, because real division is partial. In IEEE arithmetic the source yields Infinity or NaN instead. That case appears only as a `NonFinite` figure: in `Analytic.PerformAsWritten` for μ = 0 with λ < 0, and in the unstable report (`Analytic.UnstableReport`) whenever μ = 0: `Analytic.Perform` uses it for every μ = 0, `Analytic.PerformAsWritten` for μ = 0 with λ ≥ 0.
- Analytic.CustomersInSystem: requires μ ≠ 0 and λ ≠ μ. The IEEE results for a zero divisor are not modelled.
- Analytic.CustomersInQueue: requires μ ≠ 0 and λ ≠ μ. The IEEE results for a zero divisor are not modelled.
- Analytic.TimeInSystem: requires λ ≠ μ. The IEEE results for a zero divisor are not modelled.
- Analytic.TimeInQueue: requires μ ≠ 0 and λ ≠ μ. The IEEE results for a zero divisor are not modelled.
- Analytic.EmptyProbability: requires μ ≠ 0. The IEEE results for a zero divisor are not modelled.
- Poisson.SamplePoisson: over a finite sequence of draws it returns `None` when the draws run out. The source keeps drawing until the product falls to the threshold.
- The tick inputs are free: any arrival count and any service outcome. With λ ≤ 0 the source always samples 0 arrivals, and with μ ≤ 0 its service trial never succeeds; the model allows other inputs in those cases too, so its all-inputs lemmas cover those deterministic runs but do not single them out.
- `startSimulation` does not reject zero or negative rates. The model follows the code: such a run starts, as does an unstable one.
- In the unstable branch the empty-system probability is the fixed 0 shown at line 116, not 1-ρ. The model follows the code.

## Findings

| source | as written | input that shows it | evidently intended | confidence | as-written member | corrected member |
|---|---|---|---|---|---|---|
| src/scripts/queueCalculations.js:106 | The guard `!(serviceRate > arrivalRate)` is the only gate before the formula branch. Every input with λ < μ is evaluated and announced as a successful calculation, including μ = 0, μ < 0 and λ < 0. | λ = -1, μ = 0: λ/μ divides by zero, so the utilization is non-finite. λ = -10, μ = -1: reported as stable with utilization 10. λ = -10, μ = 1: reported as stable with utilization -10 and empty-system probability 11. | The formulas are evaluated only in the stable domain 0 ≤ λ < μ (so μ > 0 and 0 ≤ ρ < 1). Every other input gets the "No estable" report. | not executed; high that μ = 0 reaches a division by zero, medium on the intended gate | `Analytic.PerformAsWritten`, `Analytic.Calculate`, `Analytic.GuardAdmitsZeroServiceRate`, `Analytic.GuardAdmitsNegativeServiceRate`, `Analytic.GuardAdmitsNegativeArrivalRate`, `Analytic.GuardAdmitsImpossibleProbability` | `Analytic.Perform`, `Analytic.CalculateCorrected`, `Analytic.AsWrittenAgreesOutsideGap` |

=== FILE: analytic.dfy ===
/** The M/M/1 analytic engine: the six closed-form steady-state metrics of
    `QueueCalculator` and the stable/unstable decision of
    `performCalculations`, over exact real arithmetic. */
module Analytic {
  import opened Wrappers

  /** Arrival rate (lambda) and service rate (mu), both per hour. */
  datatype Rates = Rates(lambda: real, mu: real)

  /** The stability domain of an M/M/1 queue: a non-negative arrival rate
      below the service rate, so mu is positive and the load factor lies in
      [0, 1). */
  predicate Stable(q: Rates) {
    0.0 <= q.lambda && q.lambda < q.mu
  }

  // ---------------------------------------------------------------------
  // The six formulas. Each requires only that its divisors are nonzero.
  // ---------------------------------------------------------------------

  /** rho = lambda / mu. */
  function Utilization(q: Rates): (rho: real)
    requires q.mu != 0.0
    ensures rho * q.mu == q.lambda
    ensures 0.0 < q.mu ==> (rho < 1.0 <==> q.lambda < q.mu)
    ensures 0.0 < q.lambda < q.mu ==> 0.0 < rho < 1.0
  {
    q.lambda / q.mu
  }

  /** L = rho / (1 - rho), the mean number of customers in the system. */
  function CustomersInSystem(q: Rates): (l: real)
    requires q.mu != 0.0 && q.lambda != q.mu
    ensures l * (q.mu - q.lambda) == q.lambda
    ensures 0.0 < q.lambda < q.mu ==> 0.0 < l
  {
    var rho := Utilization(q);
    LoadGapNonzero(q);
    rho / (1.0 - rho)
  }

  /** Lq = rho^2 / (1 - rho), the mean number of customers waiting. */
  function CustomersInQueue(q: Rates): (lq: real)
    requires q.mu != 0.0 && q.lambda != q.mu
    ensures lq * q.mu * (q.mu - q.lambda) == q.lambda * q.lambda
    ensures 0.0 < q.lambda < q.mu ==> 0.0 < lq
  {
    var rho := Utilization(q);
    LoadGapNonzero(q);
    (rho * rho) / (1.0 - rho)
  }

  /** W = 1 / (mu - lambda), the mean time a customer spends in the system. */
  function TimeInSystem(q: Rates): (w: real)
    requires q.lambda != q.mu
    ensures w * (q.mu - q.lambda) == 1.0
    ensures q.lambda < q.mu ==> 0.0 < w
  {
    1.0 / (q.mu - q.lambda)
  }

  /** Wq = rho / (mu - lambda), the mean time a customer waits before service. */
  function TimeInQueue(q: Rates): (wq: real)
    requires q.mu != 0.0 && q.lambda != q.mu
    ensures wq * q.mu * (q.mu - q.lambda) == q.lambda
    ensures 0.0 < q.lambda < q.mu ==> 0.0 < wq
  {
    Utilization(q) / (q.mu - q.lambda)
  }

  /** P0 = 1 - rho, the probability that the system is empty. */
  function EmptyProbability(q: Rates): (p0: real)
    requires q.mu != 0.0
    ensures p0 * q.mu == q.mu - q.lambda
    ensures 0.0 <= q.lambda < q.mu ==> 0.0 < p0 <= 1.0
  {
    1.0 - Utilization(q)
  }

  /** With mu != 0, the divisor 1 - rho vanishes exactly when lambda == mu. */
  lemma LoadGapNonzero(q: Rates)
    requires q.mu != 0.0
    ensures 1.0 - Utilization(q) == (q.mu - q.lambda) / q.mu
    ensures 1.0 - Utilization(q) != 0.0 <==> q.lambda != q.mu
  {
    var rho := Utilization(q);
    var gap := (q.mu - q.lambda) / q.mu;
    assert (1.0 - rho) * q.mu == q.mu - q.lambda;
    assert gap * q.mu == q.mu - q.lambda;
    CancelFactor(1.0 - rho, gap, q.mu);
  }

  /** Multiplication by a nonzero factor is injective. */
  lemma CancelFactor(a: real, b: real, m: real)
    requires m != 0.0 && a * m == b * m
    ensures a == b
  {
    assert (a - b) * m == 0.0;
  }

  // ---------------------------------------------------------------------
  // Identities of the M/M/1 formulas.
  // ---------------------------------------------------------------------

  /** For a positive service rate above the arrival rate both divisors of
      the formulas, 1 - rho and mu - lambda, are strictly positive. */
  lemma StableDomainDivisors(q: Rates)
    requires 0.0 < q.mu && q.lambda < q.mu
    ensures 0.0 < 1.0 - Utilization(q)
    ensures 0.0 < q.mu - q.lambda
  {
    LoadGapNonzero(q);
  }

  /** Lq = rho * L, and hence L - Lq = rho: the server is busy a fraction rho
      of the time. */
  lemma QueueIsUtilizationTimesSystem(q: Rates)
    requires q.mu != 0.0 && q.lambda != q.mu
    ensures CustomersInQueue(q) == Utilization(q) * CustomersInSystem(q)
    ensures CustomersInSystem(q) - CustomersInQueue(q) == Utilization(q)
  {
    var rho, g := Utilization(q), 1.0 - Utilization(q);
    LoadGapNonzero(q);
    assert CustomersInQueue(q) == (rho * rho) / g;
    assert CustomersInSystem(q) == rho / g;
    assert (rho * rho) / g == rho * (rho / g);
    assert rho / g - (rho * rho) / g == (rho * g) / g;
  }

  /** W - Wq = 1/mu: the time in system exceeds the waiting time by one
      mean service time. */
  lemma ServiceTimeGap(q: Rates)
    requires q.mu != 0.0 && q.lambda != q.mu
    ensures TimeInSystem(q) - TimeInQueue(q) == 1.0 / q.mu
  {
    var d := q.mu - q.lambda;
    var rho := Utilization(q);
    assert TimeInSystem(q) - TimeInQueue(q) == (1.0 - rho) / d;
    LoadGapNonzero(q);
    assert (1.0 - rho) / d == (d / q.mu) / d;
  }

  /** Little's law, for the system and for the queue: L = lambda * W and
      Lq = lambda * Wq. */
  lemma LittlesLaw(q: Rates)
    requires q.mu != 0.0 && q.lambda != q.mu
    ensures CustomersInSystem(q) == q.lambda * TimeInSystem(q)
    ensures CustomersInQueue(q) == q.lambda * TimeInQueue(q)
  {
    var d := q.mu - q.lambda;
    var l, lq := CustomersInSystem(q), CustomersInQueue(q);
    CancelFactor(l, q.lambda * TimeInSystem(q), d);
    CancelFactor(lq, q.lambda * TimeInQueue(q), q.mu * d);
  }

  /** P0 = 1 - rho, and it is the complement of L's normalisation:
      P0 = 1 / (1 + L). */
  lemma EmptyProbabilityComplement(q: Rates)
    requires q.mu != 0.0 && q.lambda != q.mu
    ensures EmptyProbability(q) == 1.0 - Utilization(q)
    ensures EmptyProbability(q) * (1.0 + CustomersInSystem(q)) == 1.0
  {
    var rho := Utilization(q);
    var g := 1.0 - rho;
    LoadGapNonzero(q);
    assert CustomersInSystem(q) == rho / g;
    assert g * (1.0 + rho / g) == g + rho;
  }

  // ---------------------------------------------------------------------
  // The stable/unstable decision of performCalculations.
  // ---------------------------------------------------------------------

  /** One displayed metric: a finite number, the "No estable" tag, or the
      non-finite IEEE value (Infinity or NaN) a division by zero produces. */
  datatype Figure = Value(x: real) | NotStable | NonFinite

  /** The six metrics shown to the user, with the stability verdict (the
      success notice when `stable`, the instability warning otherwise). */
  datatype Report = Report(
    stable: bool,
    utilization: Figure,
    customersInSystem: Figure,
    customersInQueue: Figure,
    timeInSystem: Figure,
    timeInQueue: Figure,
    emptyProbability: Figure)

  /** Every figure of the report is a finite number. */
  predicate AllValues(r: Report) {
    && r.utilization.Value? && r.customersInSystem.Value?
    && r.customersInQueue.Value? && r.timeInSystem.Value?
    && r.timeInQueue.Value? && r.emptyProbability.Value?
  }

  /** The "No estable" report: utilization only, the four means tagged, and
      the fixed empty-system probability 0. */
  function UnstableReport(q: Rates): Report {
    Report(false,
           if q.mu == 0.0 then NonFinite else Value(Utilization(q)),
           NotStable, NotStable, NotStable, NotStable,
           Value(0.0))
  }

  /** The report built from the six `QueueCalculator` formulas. */
  function FormulaReport(q: Rates): Report
    requires q.mu != 0.0 && q.lambda != q.mu
  {
    Report(true,
           Value(Utilization(q)),
           Value(CustomersInSystem(q)),
           Value(CustomersInQueue(q)),
           Value(TimeInSystem(q)),
           Value(TimeInQueue(q)),
           Value(EmptyProbability(q)))
  }

  /** The decision as the calculator's guard `!(mu > lambda)` writes it: the
      formula branch is taken whenever mu > lambda, even when mu is zero or
      negative, or lambda is negative. With
      mu == 0 every formula dividing by mu yields a non-finite value, while
      1 / (mu - lambda) stays finite. */
  function PerformAsWritten(q: Rates): (r: Report)
    ensures r.stable <==> q.lambda < q.mu
    ensures r.stable && q.mu == 0.0 ==> r.utilization == NonFinite
    ensures r.stable && q.mu != 0.0 ==> AllValues(r)
  {
    if !(q.mu > q.lambda) then UnstableReport(q)
    else if q.mu == 0.0 then
      Report(true, NonFinite, NonFinite, NonFinite,
             Value(TimeInSystem(q)), NonFinite, NonFinite)
    else FormulaReport(q)
  }

  /** The decision with the stability domain stated explicitly: the formulas
      are evaluated only for 0 <= lambda < mu (a load factor in [0, 1));
      every other input gets the "No estable" report. */
  function Perform(q: Rates): (r: Report)
    ensures r.stable <==> 0.0 <= q.lambda && q.lambda < q.mu
    ensures r.stable ==>
              && AllValues(r)
              && 0.0 <= r.utilization.x < 1.0 && r.utilization.x * q.mu == q.lambda
              && 0.0 <= r.customersInSystem.x && 0.0 <= r.customersInQueue.x
              && 0.0 < r.timeInSystem.x && 0.0 <= r.timeInQueue.x
              && 0.0 < r.emptyProbability.x <= 1.0
    ensures r.stable && 0.0 < q.lambda ==>
              && 0.0 < r.utilization.x
              && 0.0 < r.customersInSystem.x && 0.0 < r.customersInQueue.x
              && 0.0 < r.timeInQueue.x && r.emptyProbability.x < 1.0
    ensures !r.stable ==>
              && r.customersInSystem == NotStable && r.customersInQueue == NotStable
              && r.timeInSystem == NotStable && r.timeInQueue == NotStable
              && r.emptyProbability == Value(0.0)
              && (r.utilization == NonFinite <==> q.mu == 0.0)
              && (r.utilization.Value? ==> r.utilization.x * q.mu == q.lambda)
              && (0.0 <= q.lambda && 0.0 < q.mu ==> r.utilization.Value? && 1.0 <= r.utilization.x)
  {
    if Stable(q) then FormulaReport(q) else UnstableReport(q)
  }

  /** In the formula branch the displayed figures obey the M/M/1 identities. */
  lemma StableReportIdentities(q: Rates)
    requires Perform(q).stable
    ensures var r := Perform(q);
            && r.customersInQueue.x == r.utilization.x * r.customersInSystem.x
            && r.customersInSystem.x - r.customersInQueue.x == r.utilization.x
            && r.timeInSystem.x - r.timeInQueue.x == 1.0 / q.mu
            && r.customersInSystem.x == q.lambda * r.timeInSystem.x
            && r.customersInQueue.x == q.lambda * r.timeInQueue.x
            && r.emptyProbability.x == 1.0 - r.utilization.x
  {
    QueueIsUtilizationTimesSystem(q);
    ServiceTimeGap(q);
    LittlesLaw(q);
    EmptyProbabilityComplement(q);
  }

  /** The as-written guard and the explicit domain give the same report on
      every input except those with lambda < 0 and lambda < mu, which the
      guard alone sends into the formula branch. */
  lemma AsWrittenAgreesOutsideGap(q: Rates)
    ensures PerformAsWritten(q) == Perform(q) <==> !(q.lambda < 0.0 && q.lambda < q.mu)
  {
  }

  /** The guard `!(mu > lambda)` lets mu == 0 through: lambda = -1, mu = 0 gets a
      "stable" verdict with a non-finite utilization. */
  lemma GuardAdmitsZeroServiceRate()
    ensures PerformAsWritten(Rates(-1.0, 0.0)).stable
    ensures PerformAsWritten(Rates(-1.0, 0.0)).utilization == NonFinite
    ensures !Perform(Rates(-1.0, 0.0)).stable
  {
  }

  /** The guard also lets a negative mu through: lambda = -10, mu = -1 gets a
      "stable" verdict with a load factor of 10. */
  lemma GuardAdmitsNegativeServiceRate()
    ensures PerformAsWritten(Rates(-10.0, -1.0)).stable
    ensures PerformAsWritten(Rates(-10.0, -1.0)).utilization == Value(10.0)
    ensures !Perform(Rates(-10.0, -1.0)).stable
  {
  }

  /** The guard also lets a negative lambda through: lambda = -10, mu = 1 gets
      a "stable" verdict with a load factor of -10 and an empty-system
      "probability" of 11. */
  lemma GuardAdmitsNegativeArrivalRate()
    ensures PerformAsWritten(Rates(-10.0, 1.0)).stable
    ensures PerformAsWritten(Rates(-10.0, 1.0)).utilization == Value(-10.0)
    ensures PerformAsWritten(Rates(-10.0, 1.0)).emptyProbability == Value(11.0)
    ensures !Perform(Rates(-10.0, 1.0)).stable
  {
  }

  /** Every input in the gap with a nonzero mu gets a "stable" verdict whose
      empty-system "probability" lies outside [0, 1]: above 1 when mu > 0,
      below 0 when mu < 0. */
  lemma GuardAdmitsImpossibleProbability(q: Rates)
    requires q.lambda < 0.0 && q.lambda < q.mu && q.mu != 0.0
    ensures PerformAsWritten(q).stable && !Perform(q).stable
    ensures PerformAsWritten(q).emptyProbability.Value?
    ensures var p0 := PerformAsWritten(q).emptyProbability.x;
            p0 < 0.0 || 1.0 < p0
    ensures 0.0 < q.mu ==> 1.0 < PerformAsWritten(q).emptyProbability.x
    ensures q.mu < 0.0 ==> PerformAsWritten(q).emptyProbability.x < 0.0
  {
  }

  /** lambda = 2, mu = 5: rho = 0.4, L = 2/3, Lq = 4/15, W = 1/3 h,
      Wq = 2/15 h, P0 = 0.6. */
  lemma ModerateLoadScenario()
    ensures Perform(Rates(2.0, 5.0)) ==
            Report(true, Value(0.4), Value(2.0 / 3.0), Value(4.0 / 15.0),
                   Value(1.0 / 3.0), Value(2.0 / 15.0), Value(0.6))
  {
  }

  /** lambda = mu = 5: the boundary is unstable, with utilization 1. */
  lemma BoundaryScenario()
    ensures Perform(Rates(5.0, 5.0)) ==
            Report(false, Value(1.0), NotStable, NotStable, NotStable, NotStable, Value(0.0))
  {
  }

  /** lambda = 10, mu = 1: overload is unstable, with utilization 10. */
  lemma OverloadScenario()
    ensures Perform(Rates(10.0, 1.0)) ==
            Report(false, Value(10.0), NotStable, NotStable, NotStable, NotStable, Value(0.0))
  {
  }

  // ---------------------------------------------------------------------
  // Input validation.
  // ---------------------------------------------------------------------

  /** Outcome of a "calculate" request: a field did not parse to a finite
      number (warning, nothing displayed), or a report. */
  datatype Calculation = InvalidInput | Reported(report: Report)

  /** A "calculate" request as the calculator handles it: a rate that did not
      parse (NaN) rejects the request before any metric is computed;
      otherwise the as-written decision is displayed. */
  function Calculate(arrival: Option<real>, service: Option<real>): (c: Calculation)
    ensures c.InvalidInput? <==> arrival.None? || service.None?
    ensures c.Reported? ==> (c.report.stable <==> arrival.value < service.value)
    ensures c.Reported? && c.report.stable && service.value == 0.0 ==>
              c.report.utilization == NonFinite
  {
    if arrival.None? || service.None? then InvalidInput
    else Reported(PerformAsWritten(Rates(arrival.value, service.value)))
  }

  /** The same request with the stability domain stated explicitly: the
      formulas are displayed only for 0 <= lambda < mu, and then every figure
      is finite and the empty-system probability is a probability. */
  function CalculateCorrected(arrival: Option<real>, service: Option<real>): (c: Calculation)
    ensures c.InvalidInput? <==> arrival.None? || service.None?
    ensures c.Reported? ==>
              (c.report.stable <==> 0.0 <= arrival.value && arrival.value < service.value)
    ensures c.Reported? && c.report.stable ==>
              AllValues(c.report) && 0.0 < c.report.emptyProbability.x <= 1.0
  {
    if arrival.None? || service.None? then InvalidInput
    else Reported(Perform(Rates(arrival.value, service.value)))
  }
}

=== FILE: poisson.dfy ===
/** Knuth's product-of-uniforms Poisson sampler (`samplePoisson`), run over
    a given finite sequence of uniform draws instead of `Math.random`, with
    the threshold `exp(-rate)` supplied by the caller. */
module Poisson {
  import opened Wrappers

  /** Product of a sequence of draws (1 for no draws). */
  function Product(draws: seq<real>): (p: real)
    decreases |draws|
  {
    if |draws| == 0 then 1.0 else Product(draws[..|draws| - 1]) * draws[|draws| - 1]
  }

  /** `n` is Knuth's sample for these draws: the running product first drops
      to the threshold or below after exactly `n + 1` draws. */
  predicate IsSample(draws: seq<real>, threshold: real, n: nat) {
    && n < |draws|
    && Product(draws[..n + 1]) <= threshold
    && forall j :: 1 <= j <= n ==> threshold < Product(draws[..j])
  }

  /** The sampler. A non-positive rate gives 0 without drawing. Otherwise it
      multiplies draws until the product is at or below the threshold and
      returns one less than the number of draws used; `None` when the given
      draws run out first. */
  method SamplePoisson(rate: real, threshold: real, draws: seq<real>) returns (k: Option<nat>)
    ensures rate <= 0.0 ==> k == Some(0)
    ensures 0.0 < rate && k.Some? ==> IsSample(draws, threshold, k.value)
    ensures 0.0 < rate && k.None? ==>
              forall j :: 1 <= j <= |draws| ==> threshold < Product(draws[..j])
    ensures 0.0 < rate && 0 < |draws| ==> (k == Some(0) <==> draws[0] <= threshold)
  {
    if rate <= 0.0 {
      k := Some(0);
    } else {
      if 0 < |draws| {
        assert draws[..1][..0] == [];
        assert Product(draws[..1]) == draws[0];
      }
      var n := 0;
      var p := 1.0;
      k := None;
      while n < |draws|
        invariant 0 <= n <= |draws|
        invariant p == Product(draws[..n])
        invariant forall j :: 1 <= j <= n ==> threshold < Product(draws[..j])
      {
        n := n + 1;
        assert draws[..n][..n - 1] == draws[..n - 1];
        p := p * draws[n - 1];
        if p <= threshold {
          k := Some(n - 1);
          break;
        }
      }
    }
  }

  /** The sample is determined by the draws: two samples for the same draws
      and threshold are equal. */
  lemma SampleUnique(draws: seq<real>, threshold: real, m: nat, n: nat)
    requires IsSample(draws, threshold, m) && IsSample(draws, threshold, n)
    ensures m == n
  {
  }
}

=== FILE: simulation.dfy ===
/** The per-second simulation: the `simState` record, the reset done by
    `startSimulation`, the body of the one-second timer callback, and
    `stopSimulation`, as pure transitions over an immutable state. The two
    random draws of a tick (the Poisson arrival count and the Bernoulli
    service outcome) are inputs of the tick. */
module Simulation {
  import opened Wrappers

  /** Queue length at which a run is stopped to protect the host. */
  const SafetyMaxQueue: nat := 2000000

  /** Seconds in one hour: the horizon is entered in hours, a tick is one second. */
  const SecondsPerHour: real := 3600.0

  /** The simulation state. `horizon` is the run's maximum number of ticks,
      `None` for a run that only an explicit stop (or the safety limit) ends. */
  datatype SimState = SimState(
    running: bool,
    elapsed: nat,
    queueLength: nat,
    arrivals: nat,
    departures: nat,
    horizon: Option<nat>)

  /** How a tick ended: the run goes on, the horizon was reached, or the
      queue reached the safety limit. */
  datatype Event = Continue | HorizonReached | SafetyLimit

  /** A state together with the event of the tick that produced it. */
  datatype Step = Step(state: SimState, event: Event)

  /** The random outcomes of one tick: the number of arrivals drawn, and
      whether the service trial succeeded. */
  datatype TickInput = TickInput(arrivals: nat, served: bool)

  /** The state before any run: stopped, all counters zero. */
  const Idle: SimState := SimState(false, 0, 0, 0, 0, None)

  /** Conservation: every customer that arrived either departed or is still
      in the queue. */
  predicate Conserved(s: SimState) {
    s.departures <= s.arrivals && s.queueLength == s.arrivals - s.departures
  }

  /** The number of ticks a bounded run performs: a horizon of zero seconds
      still lets the first tick run, because the stop test follows it. */
  function TicksFor(h: nat): (n: nat)
    ensures 1 <= n && h <= n
    ensures h == 0 || n == h
    ensures n == 1 || n == h
  {
    if h == 0 then 1 else h
  }

  /** Horizon from the entered number of hours: the whole number of seconds
      when positive, unbounded otherwise. */
  function HorizonOf(hours: real): (h: Option<nat>)
    ensures h.None? <==> hours <= 0.0
    ensures h.Some? ==> h.value as real <= hours * SecondsPerHour < h.value as real + 1.0
  {
    if hours > 0.0 then Some((hours * SecondsPerHour).Floor as nat) else None
  }

  /** Starting a run. A running simulation is left alone; a field that did
      not parse (the parser's NaN) leaves the state untouched; otherwise every
      counter is reset and the horizon fixed. The rates themselves are not
      range-checked: an unstable or non-positive rate still starts a run. */
  function Start(s: SimState, arrival: Option<real>, service: Option<real>, hours: Option<real>): (r: SimState)
    ensures s.running ==> r == s
    ensures arrival.None? || service.None? || hours.None? ==> r == s
    ensures !s.running && arrival.Some? && service.Some? && hours.Some? ==>
              && r.running
              && r.elapsed == 0 && r.queueLength == 0
              && r.arrivals == 0 && r.departures == 0
              && r.horizon == HorizonOf(hours.value)
    ensures Conserved(s) ==> Conserved(r)
  {
    if s.running then s
    else if arrival.None? || service.None? || hours.None? then s
    else SimState(true, 0, 0, 0, 0, HorizonOf(hours.value))
  }

  /** One timer tick of a running simulation: `k` customers arrive, then, if
      the queue is non-empty and the service trial succeeds, exactly one
      departs; the clock advances one second; then the horizon test and,
      only if it did not fire, the safety test may stop the run. */
  function Tick(s: SimState, k: nat, served: bool): (r: Step)
    requires s.running
    ensures r.state.elapsed == s.elapsed + 1
    ensures r.state.arrivals == s.arrivals + k
    ensures r.state.horizon == s.horizon
    ensures r.state.departures == s.departures || r.state.departures == s.departures + 1
    ensures r.state.departures == s.departures + 1 <==> 0 < s.queueLength + k && served
    ensures r.state.queueLength + r.state.departures == s.queueLength + k + s.departures
    ensures Conserved(s) ==> Conserved(r.state)
    ensures r.state.running <==> r.event == Continue
    ensures r.event == HorizonReached <==> s.horizon.Some? && s.horizon.value <= s.elapsed + 1
    ensures r.event == SafetyLimit <==>
              !(s.horizon.Some? && s.horizon.value <= s.elapsed + 1)
              && SafetyMaxQueue <= r.state.queueLength
  {
    var queued := s.queueLength + k;
    var arrived := s.arrivals + k;
    var (queue, departed) :=
      if queued > 0 && served then (queued - 1, s.departures + 1)
      else (queued, s.departures);
    var clock := s.elapsed + 1;
    var event :=
      if s.horizon.Some? && clock >= s.horizon.value then HorizonReached
      else if queue >= SafetyMaxQueue then SafetyLimit
      else Continue;
    Step(SimState(event == Continue, clock, queue, arrived, departed, s.horizon), event)
  }

  /** Stopping: the run flag is cleared and nothing else changes. */
  function Stop(s: SimState): (r: SimState)
    ensures !r.running
    ensures r.elapsed == s.elapsed && r.queueLength == s.queueLength
    ensures r.arrivals == s.arrivals && r.departures == s.departures
    ensures r.horizon == s.horizon
  {
    s.(running := false)
  }

  /** The ticks a timer delivers to a run, in order. Once a tick stops the run
      the timer is cleared, so later inputs are never consumed. */
  function Run(step: Step, inputs: seq<TickInput>): (r: Step)
    ensures !step.state.running ==> r == step
    ensures step.state.elapsed <= r.state.elapsed <= step.state.elapsed + |inputs|
    ensures r.state.running ==> r.state.elapsed == step.state.elapsed + |inputs|
    ensures r.state.horizon == step.state.horizon
    decreases |inputs|
  {
    if !step.state.running || |inputs| == 0 then step
    else Run(Tick(step.state, inputs[0].arrivals, inputs[0].served), inputs[1..])
  }

  /** Total number of arrivals the inputs would bring. */
  function TotalArrivals(inputs: seq<TickInput>): (total: nat)
    decreases |inputs|
  {
    if |inputs| == 0 then 0 else inputs[0].arrivals + TotalArrivals(inputs[1..])
  }

  // ---------------------------------------------------------------------
  // Lifecycle properties.
  // ---------------------------------------------------------------------

  /** The initial record already satisfies conservation. */
  lemma IdleConserved()
    ensures Conserved(Idle) && !Idle.running
  {
  }

  /** Stopping twice is stopping once, and stopping a stopped run changes
      nothing. */
  lemma StopIdempotent(s: SimState)
    ensures Stop(Stop(s)) == Stop(s)
    ensures !s.running ==> Stop(s) == s
  {
  }

  /** Starting a run that is already running is a no-op, so a second start
      request neither resets the counters nor moves the horizon. */
  lemma StartIdempotent(s: SimState, arrival: real, service: real, hours: real,
                        arrival': real, service': real, hours': real)
    ensures var s1 := Start(s, Some(arrival), Some(service), Some(hours));
            Start(s1, Some(arrival'), Some(service'), Some(hours')) == s1
  {
  }

  /** Conservation survives any sequence of ticks. Together with
      `IdleConserved` and the contracts of `Start` and `Stop`, it holds in
      every state reachable from the initial record. */
  lemma {:induction false} RunConserves(step: Step, inputs: seq<TickInput>)
    requires Conserved(step.state)
    ensures Conserved(Run(step, inputs).state)
    decreases |inputs|
  {
    if step.state.running && |inputs| > 0 {
      var next := Tick(step.state, inputs[0].arrivals, inputs[0].served);
      RunConserves(next, inputs[1..]);
    }
  }

  /** A run with a bounded horizon never goes past its tick budget, is
      stopped once the budget is spent, and, unless the safety limit stopped
      it first, ends after exactly `TicksFor(H)` ticks. */
  lemma {:induction false} BoundedRunLength(step: Step, inputs: seq<TickInput>, h: nat)
    requires step.state.running && step.event == Continue
    requires step.state.horizon == Some(h) && step.state.elapsed < TicksFor(h)
    ensures Run(step, inputs).state.elapsed <= TicksFor(h)
    ensures TicksFor(h) - step.state.elapsed <= |inputs| ==> !Run(step, inputs).state.running
    ensures Run(step, inputs).state.running <==> Run(step, inputs).event == Continue
    ensures Run(step, inputs).event == HorizonReached ==> Run(step, inputs).state.elapsed == TicksFor(h)
    ensures TicksFor(h) - step.state.elapsed <= |inputs| && Run(step, inputs).event != SafetyLimit ==>
              Run(step, inputs).event == HorizonReached
    decreases |inputs|
  {
    if |inputs| > 0 {
      var next := Tick(step.state, inputs[0].arrivals, inputs[0].served);
      if next.state.running {
        BoundedRunLength(next, inputs[1..], h);
      } else {
        assert Run(step, inputs) == next;
      }
    }
  }

  /** A run with no horizon is never stopped by time: it is either still
      running after every input, or the safety limit stopped it. */
  lemma {:induction false} UnboundedRunNeverTimesOut(step: Step, inputs: seq<TickInput>)
    requires step.state.running && step.event == Continue && step.state.horizon.None?
    ensures Run(step, inputs).event != HorizonReached
    ensures Run(step, inputs).state.running || Run(step, inputs).event == SafetyLimit
    decreases |inputs|
  {
    if |inputs| > 0 {
      var next := Tick(step.state, inputs[0].arrivals, inputs[0].served);
      if next.state.running {
        UnboundedRunNeverTimesOut(next, inputs[1..]);
      }
    }
  }

  /** A run's queue never holds more than it started with plus the
      customers that arrived in the ticks fed to it. */
  lemma {:induction false} QueueBoundedByArrivals(step: Step, inputs: seq<TickInput>)
    ensures Run(step, inputs).state.queueLength <= step.state.queueLength + TotalArrivals(inputs)
    decreases |inputs|
  {
    if step.state.running && |inputs| > 0 {
      var next := Tick(step.state, inputs[0].arrivals, inputs[0].served);
      QueueBoundedByArrivals(next, inputs[1..]);
    }
  }

  /** The queue can only reach the safety limit if enough customers arrive:
      while the current queue plus all future arrivals stays below it, the
      safety stop cannot fire. */
  lemma {:induction false} SafetyNeedsArrivals(step: Step, inputs: seq<TickInput>)
    requires step.event != SafetyLimit
    requires step.state.queueLength + TotalArrivals(inputs) < SafetyMaxQueue
    ensures Run(step, inputs).event != SafetyLimit
    decreases |inputs|
  {
    if step.state.running && |inputs| > 0 {
      var next := Tick(step.state, inputs[0].arrivals, inputs[0].served);
      assert next.state.queueLength <= step.state.queueLength + inputs[0].arrivals;
      SafetyNeedsArrivals(next, inputs[1..]);
    }
  }

  /** A run started with a positive number of hours performs at most
      `TicksFor(floor(hours * 3600))` ticks, and exactly that many (ending on
      the horizon) when the safety limit does not fire first. */
  lemma StartedBoundedRun(s: SimState, arrival: real, service: real, hours: real,
                          inputs: seq<TickInput>)
    requires !s.running && 0.0 < hours
    ensures var started := Start(s, Some(arrival), Some(service), Some(hours));
            var h := (hours * SecondsPerHour).Floor as nat;
            var r := Run(Step(started, Continue), inputs);
            && r.state.elapsed <= TicksFor(h)
            && Conserved(r.state)
            && (TicksFor(h) <= |inputs| ==> !r.state.running)
            && (TicksFor(h) <= |inputs| && r.event != SafetyLimit ==>
                  r.event == HorizonReached && r.state.elapsed == TicksFor(h))
  {
    var started := Start(s, Some(arrival), Some(service), Some(hours));
    var h := (hours * SecondsPerHour).Floor as nat;
    assert started.horizon == Some(h);
    BoundedRunLength(Step(started, Continue), inputs, h);
    RunConserves(Step(started, Continue), inputs);
  }

  /** A run started with zero or negative hours keeps running for as long as
      it is fed, as long as fewer than 2,000,000 customers arrive in all: a
      thousand seconds without a stop leave it running at elapsed 1000. */
  lemma UnboundedRunWithinSafety(s: SimState, arrival: real, service: real, hours: real,
                                 inputs: seq<TickInput>)
    requires !s.running && hours <= 0.0
    requires TotalArrivals(inputs) < SafetyMaxQueue
    ensures var started := Start(s, Some(arrival), Some(service), Some(hours));
            var r := Run(Step(started, Continue), inputs);
            r.state.running && r.state.elapsed == |inputs|
            && r.state.queueLength <= TotalArrivals(inputs)
  {
    assert HorizonOf(hours) == None;
    var started := Start(s, Some(arrival), Some(service), Some(hours));
    assert started.running && started.horizon.None? && started.queueLength == 0;
    assert started.elapsed == 0;
    var step := Step(started, Continue);
    SafetyNeedsArrivals(step, inputs);
    UnboundedRunNeverTimesOut(step, inputs);
    QueueBoundedByArrivals(step, inputs);
  }

  /** A queue that reaches two million stops the run, and the timer delivers
      no further tick afterwards. */
  lemma SaturationScenario(inputs: seq<TickInput>)
    ensures var s := SimState(true, 10, SafetyMaxQueue - 1, SafetyMaxQueue + 4, 5, None);
            var r := Tick(s, 1, false);
            && r.event == SafetyLimit && !r.state.running
            && r.state.queueLength == SafetyMaxQueue
            && Run(r, inputs) == r
  {
  }
}

=== FILE: wrappers.dfy ===
/** Optional values, used for the unbounded simulation horizon, for numeric
    inputs that failed to parse (the parser's NaN), and for a sampler that
    ran out of draws. */
module Wrappers {

  datatype Option<+T> = None | Some(value: T)
}
